=== FILE: README.md ===
# Pizza wizard and voice widget, modelled in Dafny

This project models the two stateful components of a pizza restaurant's web
page:

- **The custom-pizza wizard** (`PizzaBuilder.tsx`): six linear steps (crust,
  size, sauce, cheese, toppings, review) over one selection record. It has a
  toggle-style topping list, a flag marking toppings past the first four as
  extra, the list of catalogue toppings not yet chosen, and a derived price.
  Money is in integer cents: 1000 / 1500 / 2000 for small / medium / large, and
  150 per extra topping.
- **The voice-assistant widget** (`VoiceWidget.tsx`): one panel that starts
  and ends a call with an external voice SDK. It relays the SDK's events into
  a chat log, an order summary and an error line. It also keeps a status field,
  which it sets on nearly every event but never renders.

Both are pure transition functions over immutable state records.

- `pizza_builder.dfy` (module `PizzaBuilder`) has the wizard state, one function
  per handler, and `Apply`/`Run` over user actions. `Enabled` says which
  actions the dialog renders in each state.
- `voice_widget.dfy` (module `VoiceWidget`) has the widget state and the
  handlers. The SDK is abstract:
  - its six events (`call-start`, `call-end`, `speech-start`, `speech-end`,
    `message`, `error`) are inputs;
  - so are the outcomes of its `start` and `stop` promises;
  - the calls the widget makes into it come out as an `SdkRequest`.

  Each handler is split at its `await`. The part before the `await` is one
  function (`StartCallNow`, `EndCallNow`). The continuation is a separate
  input (`StartResolved`, `StartRejected`, `StopResolved`, `StopRejected`).
- `seqs.dfy` (module `Seqs`) holds the array operations the source relies on
  (`indexOf`, `filter`, `includes`, `String.includes`) with their contracts.
- `options.dfy` (module `Options`) has the `Option` type standing for
  `null`/`undefined`.

The model follows the code, also where it departs from what the page
advertises or what a reader of the components would expect:

- The charged price uses `extraToppings.length`, not
  `size price + 1.50 × max(0, toppings − 4)`; see Findings.
- In the code, "Cancel" on step 1 and dismissing the dialog only call `onClose`.
  This component does not reset its selection or its step, so reopening it
  does not by itself start from the defaults. The model's `Close` keeps the state.
- The code's `handleComplete` raises a toast with the price and calls `onClose`.
  It hands no selection to the caller.
- The widget's status is the set of strings the code writes (`CallStatus`),
  not a coarser `Idle | Connecting | Active` state.
- Nothing stops a second start while the first one is still connecting: the
  Start button is disabled only by a missing-key error; see Findings.

## Model

| member | source | states |
|---|---|---|
| `Seqs.IndexOf` | src/components/PizzaBuilder.tsx:132-133 | `indexOf`. The result is -1 exactly when the element is absent. Otherwise it is a position holding the element, and no earlier position holds it. |
| `Seqs.RemoveAll` | src/components/PizzaBuilder.tsx:95 | `filter(t => t !== x)`. Every occurrence of `x` goes. Each other element keeps its number of occurrences and its relative order. |
| `Seqs.Without` | src/components/PizzaBuilder.tsx:128 | `filter(t => !ys.includes(t))`. It keeps exactly the elements not in `ys`, each with its full number of occurrences, in their original order; elements of `ys` occur zero times. |
| `Seqs.Contains` | src/components/VoiceWidget.tsx:214 | `String.includes`. It is true exactly when the pattern occurs at some position of the string. |
| `PizzaBuilder.CatalogueNoDup` | src/components/PizzaBuilder.tsx:45-49 | The twelve catalogue toppings are pairwise distinct. |
| `PizzaBuilder.SizePrice` | src/components/PizzaBuilder.tsx:36-43 | Every size costs a whole multiple of $5 between $10 and $20; $10 exactly for small and $20 exactly for large. |
| `PizzaBuilder.CalculatePrice` | src/components/PizzaBuilder.tsx:67-71 | The charge is never below the size price, and equals it exactly when `extraToppings` is empty. |
| `PizzaBuilder.PriceTable` | src/components/PizzaBuilder.tsx:36-43 | The size prices are 1000 / 1500 / 2000 cents. A pizza with no extra toppings costs its size price, and each extra entry adds 150 cents. |
| `PizzaBuilder.PriceDependsOnlyOnSizeAndExtras` | src/components/PizzaBuilder.tsx:67-71 | Two selections with the same size and the same number of `extraToppings` entries have the same price. Crust, sauce, cheese and the topping list have no effect. |
| `PizzaBuilder.AddToppingKeepsPrice` | src/components/PizzaBuilder.tsx:67-103 | Toggling a regular topping never changes the charged price. |
| `PizzaBuilder.AddExtraToppingPrice` | src/components/PizzaBuilder.tsx:67-117 | Toggling an absent extra topping raises the price by 150. Toggling a present one lowers it by 150 per occurrence removed. |
| `PizzaBuilder.ExtraToppingsCount` | src/components/PizzaBuilder.tsx:63-65 | The count is zero exactly when at most four toppings are selected; otherwise it is the number selected beyond the fourth. |
| `PizzaBuilder.IsExtraTopping` | src/components/PizzaBuilder.tsx:131-135 | A topping is flagged exactly when it occurs at some position ≥ 4 and not among the first four. |
| `PizzaBuilder.FlaggedExactlyFromFour` | src/components/PizzaBuilder.tsx:131-135 | In a duplicate-free list, the entry at position `i` is flagged exactly when `i ≥ 4`. |
| `PizzaBuilder.MarkersAreFlagged` | src/components/PizzaBuilder.tsx:264-275 | A catalogue topping gets the "+$1.50" marker exactly when it is among the flagged selected toppings. When every selected topping is from the catalogue, the flagged toppings are exactly the marked ones. |
| `PizzaBuilder.FlaggedCountIsExtraCount` | src/components/PizzaBuilder.tsx:63-65 | For a duplicate-free list, the flagged toppings are the list after its first four, in order. So their number equals `extraToppingsCount = max(0, n − 4)`. |
| `PizzaBuilder.UnusedToppings` | src/components/PizzaBuilder.tsx:127-128 | It holds exactly the catalogue entries not selected, in catalogue order. |
| `PizzaBuilder.AddTopping` | src/components/PizzaBuilder.tsx:91-103 | An absent topping is appended at the end. A present topping has every occurrence removed and the rest kept in order. Duplicate-freeness is preserved, and no other field changes. |
| `PizzaBuilder.AddExtraTopping` | src/components/PizzaBuilder.tsx:105-117 | The same toggle on `extraToppings`: append if absent; if present, remove every occurrence and keep the rest in order. Duplicate-freeness is preserved, and no other field changes. |
| `PizzaBuilder.AddToppingTwice` | src/components/PizzaBuilder.tsx:91-103 | Toggling an absent topping twice gives back the original selection. |
| `PizzaBuilder.AddExtraToppingTwice` | src/components/PizzaBuilder.tsx:105-117 | Toggling an absent extra topping twice gives back the original selection. |
| `PizzaBuilder.HandleNext` | src/components/PizzaBuilder.tsx:73-85 | On step 5 with no toppings, Next leaves the state unchanged and raises the "No toppings selected" toast. Otherwise the step becomes `min(step+1, 6)` with no toast. The selection never changes. |
| `PizzaBuilder.EmptyToppingsBlockNext` | src/components/PizzaBuilder.tsx:75-82 | Whatever the size, Next on step 5 with an empty selection is blocked and raises the toast. |
| `PizzaBuilder.HandlePrevious` | src/components/PizzaBuilder.tsx:87-89 | The step becomes `max(step−1, 1)`, and the selection is kept. |
| `PizzaBuilder.PreviousUndoesNext` | src/components/PizzaBuilder.tsx:73-89 | Below step 6, Previous after an unblocked Next restores the state. |
| `PizzaBuilder.NextUndoesPrevious` | src/components/PizzaBuilder.tsx:73-89 | Above step 1, Next after Previous restores the state. The one exception is step 6 with no toppings, where Next is blocked on step 5. |
| `PizzaBuilder.HandleComplete` | src/components/PizzaBuilder.tsx:119-125 | Completing keeps the state, calls `onClose`, and raises a "Pizza Added" toast whose total is the size price plus 150 cents per `extraToppings` entry. |
| `PizzaBuilder.Apply` | src/components/PizzaBuilder.tsx:138-343 | Only Close and Complete call `onClose`. Close changes nothing else. |
| `PizzaBuilder.Enabled` | src/components/PizzaBuilder.tsx:146-343 | Close is always offered and the extra-topping toggle never is. A topping toggle is offered only on step 5 and only for catalogue toppings. An offered Previous moves back one step, and an offered Next that raises no toast moves on one. |
| `PizzaBuilder.ApplyKeepsStepInRange` | src/components/PizzaBuilder.tsx:84-88 | From any step in 1..6, every action leaves the step in 1..6. |
| `PizzaBuilder.RunKeepsStepInRange` | src/components/PizzaBuilder.tsx:53-88 | From any step in 1..6, every sequence of actions leaves the step in 1..6. |
| `PizzaBuilder.InitialIsReachable` | src/components/PizzaBuilder.tsx:53-61 | The initial state satisfies the reachability facts. |
| `PizzaBuilder.ApplyKeepsReachable` | src/components/PizzaBuilder.tsx:146-343 | Each action the dialog offers preserves these reachability facts: step in 1..6, toppings duplicate-free and from the catalogue, `extraToppings` empty, and at least one topping on step 6. |
| `PizzaBuilder.RunKeepsReachable` | src/components/PizzaBuilder.tsx:256-343 | Every sequence of offered actions preserves the reachability facts. In particular the review step is reached only with at least one topping. |
| `PizzaBuilder.ChargedPriceIgnoresToppings` | src/components/PizzaBuilder.tsx:67-71 | In every reachable state the charged price, and the total in the completion toast, is the bare size price. |
| `PizzaBuilder.IntendedPrice` | src/components/PizzaBuilder.tsx:260-283 | The price the toppings step advertises ($1.50 for each topping beyond four) is never below the size price, and equals it exactly when at most four toppings are selected. |
| `PizzaBuilder.IntendedPriceChargesFlagged` | src/components/PizzaBuilder.tsx:260-283 | For a duplicate-free selection, the advertised price charges 150 for each flagged selected topping (the "+$1.50" markers, when the selection is from the catalogue). It equals the size price exactly when at most four toppings are selected. |
| `PizzaBuilder.FiveToppingsChargedAsFour` | src/components/PizzaBuilder.tsx:264-313 | A large pizza with Pepperoni, Onions, Olives, Bacon and Mushrooms is reached through offered actions. Mushrooms is marked extra and the advertised price is 2150, but the toast charges 2000. |
| `VoiceWidget.Truncate` | src/components/VoiceWidget.tsx:116 | `substring(0, 30)`: a prefix of the string, the whole string when it has at most 30 characters, and exactly 30 characters otherwise. |
| `VoiceWidget.TruncateStable` | src/components/VoiceWidget.tsx:116 | Cutting twice is cutting once, and text past the 30th character never reaches the status field. |
| `VoiceWidget.MessageOf` | src/components/VoiceWidget.tsx:141 | A caught `Error` contributes its own message; any other thrown value contributes the handler's fallback text. |
| `VoiceWidget.Mount` | src/components/VoiceWidget.tsx:18-43 | The widget starts closed, with no call, no session, no order and an empty log. The error is set exactly when the key is missing, and then it contains "Missing Vapi Public Key". |
| `VoiceWidget.Toggle` | src/components/VoiceWidget.tsx:45-51 | Toggle flips the panel and clears the error. It ends the call only when the panel was open and a call was active. It then asks the SDK to stop if a session is held. Otherwise it resets the call locally, keeps the session released, and changes nothing else. |
| `VoiceWidget.ToggleTwice` | src/components/VoiceWidget.tsx:45-51 | With no active call, toggling twice restores the widget with the error cleared, and asks nothing of the SDK. |
| `VoiceWidget.StartCallNow` | src/components/VoiceWidget.tsx:60-70 | Start clears the log. Without a key it never asks for a session and ends inactive, without a session, with the error recorded. With a key it clears the error, sets the status to Connecting, and asks for one instance. |
| `VoiceWidget.StartFailed` | src/components/VoiceWidget.tsx:140-147 | A rejected start records the error's message, or "Unknown error occurred", in the error and the status, and ends inactive without a session. Every other field, the panel included, is kept. |
| `VoiceWidget.EndCallNow` | src/components/VoiceWidget.tsx:150-170 | With a session, End sets the status to "Ending Call..." and asks the SDK to stop. Without one it force-resets: inactive, Idle, no order, empty log. |
| `VoiceWidget.StopFailed` | src/components/VoiceWidget.tsx:155-163 | A rejected stop records the error and force-resets: inactive, no session, Idle, no order, empty log. |
| `VoiceWidget.OnCallStart` | src/components/VoiceWidget.tsx:72-76 | `call-start` makes the call active, sets the status to listening, clears the error, and changes nothing else. |
| `VoiceWidget.OnCallEnd` | src/components/VoiceWidget.tsx:78-84 | `call-end` always leaves the call inactive, the session released, no order and an empty log. The panel and the error are kept. |
| `VoiceWidget.OnSpeech` | src/components/VoiceWidget.tsx:86-91 | `speech-start` and `speech-end` change only the status field. |
| `VoiceWidget.OnError` | src/components/VoiceWidget.tsx:113-119 | With a string `message`, `error` records it, puts its first 30 characters in the status, ends the call and releases the session. Without one the handler clears the error and then throws, so the call and session are kept; on a `null` payload nothing changes. The log, the order and the panel are always kept. |
| `VoiceWidget.ErrorWithoutMessageKeepsCall` | src/components/VoiceWidget.tsx:113-119 | Fed an `error` event without a message, the widget only loses its error; fed a `null` payload, it is unchanged. |
| `VoiceWidget.ErrorVisible` | src/components/VoiceWidget.tsx:195 | The error paragraph is rendered only with the panel open and no order summary, never for a missing or empty error, and always for a non-empty error with the panel open and no summary. |
| `VoiceWidget.ErrorHiddenByOrder` | src/components/VoiceWidget.tsx:113-119 | An `error` event after an order summary arrived records the message but keeps the summary, and the error paragraph is rendered only without one (line 195), so the error stays off screen. |
| `VoiceWidget.MountNoticeNeverVisible` | src/components/VoiceWidget.tsx:38-51 | The missing-key notice recorded on mount is never rendered: the panel is closed then, and the toggle that opens it clears the notice. |
| `VoiceWidget.TranscriptLine` | src/components/VoiceWidget.tsx:93-99 | A chat line arises exactly for a final transcript from role `user` or `assistant`. It carries the transcript text, with speaker User exactly for `user`, and never System. |
| `VoiceWidget.OrderPayload` | src/components/VoiceWidget.tsx:101-103 | An order is accepted exactly for a `function-call` named `display_order` whose parameters are present, with a string description and a defined total. It carries those two values. |
| `VoiceWidget.OnMessage` | src/components/VoiceWidget.tsx:92-111 | A message appends exactly one line at the end of the log for a final user or assistant transcript, and leaves the log unchanged otherwise. A valid order replaces the summary and sets the status. A malformed one leaves both unchanged, and nothing else changes. |
| `VoiceWidget.InterimTranscriptIgnored` | src/components/VoiceWidget.tsx:92-99 | A non-final transcript never changes the log. |
| `VoiceWidget.OnSdkEvent` | src/components/VoiceWidget.tsx:72-119 | No SDK event acquires a session or touches the panel; only `call-start` activates a call; only `call-end` and `message` change the log or the order. |
| `VoiceWidget.Apply` | src/components/VoiceWidget.tsx:60-170 | Only Start with a key asks for an instance. Only End or Toggle with a held session asks for a stop. Only a resolved start makes the widget hold a session. |
| `VoiceWidget.CallEndClearsEverything` | src/components/VoiceWidget.tsx:78-84 | After any input sequence followed by `call-end`, the log is empty, there is no order, no active call and no session. |
| `VoiceWidget.CallLifecycle` | src/components/VoiceWidget.tsx:60-84 | Start, a resolved `start` and `call-start` give an active, held call with no error and an empty log, after one instance request; a following `call-end` releases it all. |
| `VoiceWidget.RejectedStart` | src/components/VoiceWidget.tsx:140-147 | Start followed by a rejected `start` records the message (or the fallback) in the error and the status, with no call, no session and an empty log. |
| `VoiceWidget.EndCallWithoutSession` | src/components/VoiceWidget.tsx:150-169 | End Call with no session asks nothing of the SDK and resets the call: inactive, Idle, no order, empty log, all else kept. |
| `VoiceWidget.EndCallWithSession` | src/components/VoiceWidget.tsx:150-163 | End Call with a session asks for one stop. A resolved stop changes nothing more: the session stays held and the status stays "Ending Call...". A rejected one records the error and force-resets the call. |
| `VoiceWidget.FailureReleasesSession` | src/components/VoiceWidget.tsx:113-163 | After any input sequence, a rejected start, a rejected stop or an `error` event with a message leaves an error recorded, no active call and no session. |
| `VoiceWidget.SpeechOnlyTouchesStatus` | src/components/VoiceWidget.tsx:86-91 | A run of speech events keeps every field except the status, which names whoever spoke last. |
| `VoiceWidget.NoKeyNeverStartsSession` | src/components/VoiceWidget.tsx:60-70 | Without a key, no sequence of user actions asks for an SDK instance, and the widget never holds a session. |
| `VoiceWidget.MessagesAppendTranscripts` | src/components/VoiceWidget.tsx:92-99 | A stream of messages appends to the log exactly the final user and assistant transcripts, in arrival order. |
| `VoiceWidget.LastOrderWins` | src/components/VoiceWidget.tsx:101-110 | After a stream of messages, the summary is the one from the last valid `display_order` call. If there was none, the earlier summary stays. |
| `VoiceWidget.ApplyNoSystemLine` | src/components/VoiceWidget.tsx:30-35 | No single input adds a System line to the log. |
| `VoiceWidget.NoSystemLines` | src/components/VoiceWidget.tsx:92-99 | No input sequence ever puts a System line in the log. |
| `VoiceWidget.StartEnabled` | src/components/VoiceWidget.tsx:211-218 | The Start button is usable exactly when the panel is open, no call is active and the error, if any, does not contain "Missing Vapi Public Key". |
| `VoiceWidget.MissingKeyDisablesStart` | src/components/VoiceWidget.tsx:66-67 | After a Start attempt without a key, the Start button is disabled. |
| `VoiceWidget.OpeningClearsMountNotice` | src/components/VoiceWidget.tsx:38-51 | The missing-key notice from mount is cleared by the toggle that opens the panel. So Start is usable when the panel first opens. |
| `VoiceWidget.StartEnabledWhileConnecting` | src/components/VoiceWidget.tsx:211-218 | The Start button stays usable while a call is connecting. A second press asks for another instance. |
| `VoiceWidget.TwoStartsFromOnePanel` | src/components/VoiceWidget.tsx:60-70 | Opening the panel and pressing Start twice asks the SDK for two instances. |
| `VoiceWidget.SpeechStartReopensStart` | src/components/VoiceWidget.tsx:86-88 | As written, a `speech-start` during connecting replaces "Connecting...", and a second Start then asks for a second instance. |
| `VoiceWidget.StartAllowed` | src/components/VoiceWidget.tsx:211-218 | The corrected guard holds exactly when the as-written one does and the widget answers for no SDK instance: no start pending, no session held. |
| `VoiceWidget.Live` | src/components/VoiceWidget.tsx:60-147 | The widget answers for no instance exactly when no start is pending and no session is held, and never counts more than two. |
| `VoiceWidget.GuardedApply` | src/components/VoiceWidget.tsx:60-218 | Under the corrected guard an instance is requested only when the guard allows it, and the start then counts as pending. Only Start and the `start` outcomes change the pending flag, and an outcome settles it. Every other input acts as written. |
| `VoiceWidget.GuardedApplyKeepsOneLive` | src/components/VoiceWidget.tsx:60-147 | Under the corrected guard, one input never raises the number of instances the widget answers for above one. |
| `VoiceWidget.GuardedRunKeepsOneLive` | src/components/VoiceWidget.tsx:60-147 | Under the corrected guard, no input sequence makes the widget answer for more than one instance. |
| `VoiceWidget.GuardedCreatesOnlyWhenNoneLive` | src/components/VoiceWidget.tsx:60-218 | Under the corrected guard, every instance request in any input sequence is made when no start is pending and no session is held. |
| `VoiceWidget.NoSecondStartWhilePending` | src/components/VoiceWidget.tsx:60-147 | Under the corrected guard, while a start is pending no input sequence without a `start` outcome asks for another instance, whatever SDK events arrive. |
| `VoiceWidget.GuardedSpeechStartKeepsStartClosed` | src/components/VoiceWidget.tsx:86-88 | The Start, `speech-start`, Start sequence asks for one instance under the corrected guard. |
| `VoiceWidget.GuardedStartAgainAfterCallEnd` | src/components/VoiceWidget.tsx:72-84 | Under the corrected guard Start is closed during a started call and open again after its `call-end`. |

## Findings

| source | as written | input that shows it | evidently intended | confidence | as-written member | corrected member |
|---|---|---|---|---|---|---|
| src/components/PizzaBuilder.tsx:67-71 | The charge is the size price plus 1.50 per `extraToppings` entry, and nothing the dialog renders adds to `extraToppings`. | A large pizza with five toppings is charged 20.00. | 21.50: 1.50 for each topping past the fourth, as the toppings step advertises (lines 260, 274, 283). | not executed; high | `PizzaBuilder.FiveToppingsChargedAsFour` | `PizzaBuilder.IntendedPriceChargesFlagged` |
| src/components/VoiceWidget.tsx:211-218 | Start is disabled only by a missing-key error, so it stays enabled while a call is connecting. | With a key: open the panel, press Start, press Start again before `call-start` arrives. Two SDK instances are created. | No new start while a start is pending or a session is held. | not executed; medium | `VoiceWidget.StartEnabledWhileConnecting` | `VoiceWidget.GuardedCreatesOnlyWhenNoneLive` |

The wizard's `HandleComplete` keeps the as-written price, because that is what
the page charges. `IntendedPrice` is the corrected charge, and the lemmas about
it relate it to the "+$1.50" markers. `StartEnabled` is the button's guard as
written; `StartAllowed` is the corrected guard, over a state that also records
whether a `start` is pending (`Guarded`), and `GuardedApply` is the widget
with that guard in place. The guard cannot read the status field instead: a
`speech-start` or an order message replaces "Connecting..." before the call
has started (`SpeechStartReopensStart`).

## Left out

- Rendering: layouts, labels, icons, the dialog and panel markup, CSS, and the
  chat log's auto-scroll (VoiceWidget.tsx lines 54-58). Only which controls
  are offered in each state is kept (`PizzaBuilder.Enabled`,
  `VoiceWidget.StartEnabled`).
- The SDK itself:
  - constructing it;
  - the assistant configuration and the choice between an assistant id and
    the inline configuration (lines 121-138);
  - its internal call state.

  Its events and promise outcomes are inputs, and its calls are `SdkRequest`
  outputs.
- Asynchrony: the interleaving of `await` continuations with other inputs is
  whatever order the input sequence gives. No timing is modelled.
- Environment variables: the public key is the boolean `hasKey`.
- Chat message ids: `Date.now()` values are dropped.
- `console.error`: not modelled.
- Toasts: modelled as a `Notice` value. Their description texts and variants
  are not modelled.
- Floating point and `toFixed(2)`: prices are exact integer cents. A numeric
  order total is a JavaScript `number` in the source; the model holds it as an
  `int` inside `JsValue`.
- Rendering of the status and the error: the source sets `callStatus` on
  nearly every event but never renders it, and it renders the error only while
  no order summary is displayed (VoiceWidget.tsx line 195). The model keeps both
  as recorded fields; `ErrorVisible` states the error's rendering condition,
  under which an empty error message is not rendered either.
- Status text: each status string is a `CallStatus` constructor, not its text.
  `substring(0, 30)` counts UTF-16 code units in the source but Dafny
  characters here.
- `VoiceWidget.OnError`: a payload whose `message` is present but not a string
  (a number, say) is not modelled; the three payload shapes are a string
  message, no message, and `null`/`undefined`.
- `VoiceWidget.GuardedApply`: a `start` outcome with no start pending cannot
  arise and is ignored.
- Message fields: the type checks on `type`, `transcriptType` and `role` are
  `===` comparisons with literals. An absent field is modelled by a string
  matching none of those literals.
- `MenuSection.tsx`, `SpecialDeals.tsx`, `Hero.tsx`, `Footer.tsx` and
  `Index.tsx` are static menu data and layout, with no behaviour to model. The
  wizard is not mounted by `MenuSection.tsx` (its use is commented out at
  lines 377-382), so whether reopening it resets its state depends on a parent
  that is not part of this model.

=== FILE: options.dfy ===
/** An optional value: `None` stands for the source's `null`/`undefined`. */
module Options {

  datatype Option<+T> = None | Some(value: T)
}

=== FILE: pizza_builder.dfy ===
/**
 The custom-pizza wizard: six linear steps (crust, size, sauce, cheese,
 toppings, review) over one in-memory selection, a toggle-style topping list
 and a derived price. Money is in integer cents.
 */
module PizzaBuilder {
  import opened Options
  import opened Seqs

  datatype Crust = Thick | Thin
  datatype Size = Small | Medium | Large
  datatype Sauce = Tomato | Garlic | Bbq | Buffalo
  datatype Cheese = Mozzarella | FourCheese | Light | ExtraCheese

  type Topping = string

  /** The selection the wizard edits. */
  datatype CustomPizza = CustomPizza(
    crust: Crust,
    size: Size,
    sauce: Sauce,
    cheese: Cheese,
    toppings: seq<Topping>,
    extraToppings: seq<Topping>)

  /** The wizard's whole state: the step shown (1..6) and the selection. */
  datatype Builder = Builder(step: int, pizza: CustomPizza)

  /** Toasts the wizard raises. */
  datatype Notice =
    | NoToppingsSelected      // "No toppings selected", destructive
    | PizzaAdded(totalCents: nat)

  /** What one user action leaves behind: the new state, a toast, and whether `onClose` ran. */
  datatype Transition = Transition(builder: Builder, notice: Option<Notice>, closed: bool)

  /** The user actions the dialog wires up, plus `handleAddExtraTopping`, which nothing renders. */
  datatype Event =
    | Next
    | Previous
    | Close                   // the step-1 Cancel button and the dialog's own dismissal
    | Complete
    | ChooseCrust(crust: Crust)
    | ChooseSize(size: Size)
    | ChooseSauce(sauce: Sauce)
    | ChooseCheese(cheese: Cheese)
    | ToggleTopping(topping: Topping)
    | ToggleExtraTopping(topping: Topping)

  const FirstStep := 1
  const LastStep := 6
  const ToppingsStep := 5
  const MaxIncludedToppings := 4
  const ExtraToppingFee: nat := 150

  /** Base price of each size, in cents. */
  function SizePrice(size: Size): (r: nat)
    ensures 1000 <= r <= 2000 && r % 500 == 0
    ensures size == Small <==> r == 1000
    ensures size == Large <==> r == 2000
  {
    match size
    case Small => 1000
    case Medium => 1500
    case Large => 2000
  }

  /** The fixed topping catalogue, in display order. */
  const Catalogue: seq<Topping> := [
    "Pepperoni", "Sausage", "Ham", "Bacon", "Chicken",
    "Mushrooms", "Onions", "Bell Peppers", "Olives",
    "Pineapple", "Jalape\U{221A}\U{00B1}os", "Spinach"
  ]

  const InitialPizza := CustomPizza(Thick, Medium, Tomato, Mozzarella, [], [])
  const Initial := Builder(FirstStep, InitialPizza)

  function Min(a: int, b: int): int { if a <= b then a else b }
  function Max(a: int, b: int): int { if a >= b then a else b }

  // ---------------------------------------------------------------------------
  // Pricing
  // ---------------------------------------------------------------------------

  /** The price the wizard charges, as written: size price plus the fee per `extraToppings` entry. */
  function CalculatePrice(p: CustomPizza): (r: nat)
    ensures r >= SizePrice(p.size)
    ensures r == SizePrice(p.size) <==> p.extraToppings == []
  {
    SizePrice(p.size) + ExtraToppingFee * |p.extraToppings|
  }

  /** The price depends on the size and on how many extra toppings there are, and on nothing else. */
  lemma PriceDependsOnlyOnSizeAndExtras(p: CustomPizza, q: CustomPizza)
    requires p.size == q.size && |p.extraToppings| == |q.extraToppings|
    ensures CalculatePrice(p) == CalculatePrice(q)
  {
  }

  /** Concrete prices: every size with no extras, and each extra adds exactly 150 cents. */
  lemma PriceTable(p: CustomPizza)
    ensures p.extraToppings == [] ==> CalculatePrice(p) == SizePrice(p.size)
    ensures SizePrice(Small) == 1000 && SizePrice(Medium) == 1500 && SizePrice(Large) == 2000
    ensures CalculatePrice(p.(extraToppings := p.extraToppings + ["x"])) == CalculatePrice(p) + 150
  {
  }

  // ---------------------------------------------------------------------------
  // Toppings
  // ---------------------------------------------------------------------------

  /** `extraToppingsCount`: how many selected toppings lie beyond the four included ones. */
  function ExtraToppingsCount(toppings: seq<Topping>): (r: nat)
    ensures r <= |toppings|
    ensures r == 0 <==> |toppings| <= MaxIncludedToppings
    ensures r > 0 ==> MaxIncludedToppings + r == |toppings|
  {
    Max(0, |toppings| - MaxIncludedToppings)
  }

  /** `isExtraTopping`: the topping's first position in the list is 4 or more. */
  function IsExtraTopping(toppings: seq<Topping>, t: Topping): (r: bool)
    ensures r <==>
      (exists i :: MaxIncludedToppings <= i < |toppings| && toppings[i] == t) &&
      (forall i :: 0 <= i < |toppings| && i < MaxIncludedToppings ==> toppings[i] != t)
  {
    var k := IndexOf(toppings, t);
    if k == -1 then false else k >= MaxIncludedToppings
  }

  /** In a duplicate-free list, exactly the entries at positions 4 and beyond are flagged. */
  lemma FlaggedExactlyFromFour(toppings: seq<Topping>, i: int)
    requires NoDup(toppings)
    requires 0 <= i < |toppings|
    ensures IsExtraTopping(toppings, toppings[i]) <==> i >= MaxIncludedToppings
  {
  }

  /** The entries of `part` that `IsExtraTopping(whole, ·)` flags, in order. */
  function FlaggedIn(whole: seq<Topping>, part: seq<Topping>): (r: seq<Topping>)
    ensures forall t :: t in r <==> t in part && IsExtraTopping(whole, t)
  {
    if |part| == 0 then []
    else (if IsExtraTopping(whole, part[0]) then [part[0]] else []) + FlaggedIn(whole, part[1..])
  }

  /**
   The selected toppings `isExtraTopping` flags, in selection order. The
   toppings step draws its "+$1.50" markers over the catalogue instead, so it
   marks exactly the catalogue entries among these (`MarkersAreFlagged`).
   */
  function Flagged(toppings: seq<Topping>): seq<Topping> {
    FlaggedIn(toppings, toppings)
  }

  /**
   The toppings step marks a catalogue entry "+$1.50" exactly when it is among
   the flagged selected toppings; when every selected topping is a catalogue
   entry, the flagged toppings are exactly the marked ones.
   */
  lemma MarkersAreFlagged(toppings: seq<Topping>)
    ensures forall t :: t in Catalogue ==> (IsExtraTopping(toppings, t) <==> t in Flagged(toppings))
    ensures (forall t :: t in toppings ==> t in Catalogue) ==>
      forall t :: t in Flagged(toppings) <==> t in Catalogue && IsExtraTopping(toppings, t)
  {
  }

  lemma {:induction false} FlaggedInSuffix(whole: seq<Topping>, k: nat)
    requires NoDup(whole)
    requires k <= |whole|
    ensures FlaggedIn(whole, whole[k..]) == whole[Max(k, Min(MaxIncludedToppings, |whole|))..]
    decreases |whole| - k
  {
    var from := Max(k, Min(MaxIncludedToppings, |whole|));
    if k == |whole| {
      assert from == |whole|;
    } else {
      var rest := FlaggedIn(whole, whole[k + 1..]);
      var flag := IsExtraTopping(whole, whole[k]);
      assert FlaggedIn(whole, whole[k..]) == (if flag then [whole[k]] else []) + rest by {
        assert whole[k..][0] == whole[k];
        assert whole[k..][1..] == whole[k + 1..];
      }
      FlaggedInSuffix(whole, k + 1);
      FlaggedExactlyFromFour(whole, k);
      if k >= MaxIncludedToppings {
        assert from == k && rest == whole[k + 1..];
        assert whole[k..] == [whole[k]] + whole[k + 1..];
      } else {
        assert from == Max(k + 1, Min(MaxIncludedToppings, |whole|));
        assert rest == whole[from..];
      }
    }
  }

  /**
   For a duplicate-free list the flagged toppings are exactly those after the
   first four, so their number is the on-screen `extraToppingsCount`.
   */
  lemma FlaggedCountIsExtraCount(toppings: seq<Topping>)
    requires NoDup(toppings)
    ensures Flagged(toppings) == toppings[Min(MaxIncludedToppings, |toppings|)..]
    ensures |Flagged(toppings)| == ExtraToppingsCount(toppings)
  {
    FlaggedInSuffix(toppings, 0);
  }

  /** `unusedToppings`: the catalogue entries not selected, in catalogue order. */
  function UnusedToppings(toppings: seq<Topping>): (r: seq<Topping>)
    ensures forall t :: t in r <==> t in Catalogue && t !in toppings
    ensures IsSubsequence(r, Catalogue)
  {
    Without(Catalogue, toppings)
  }

  /** `handleAddTopping`: remove the topping if it is selected, otherwise append it. */
  function AddTopping(p: CustomPizza, t: Topping): (r: CustomPizza)
    ensures t !in p.toppings ==> r.toppings == p.toppings + [t]
    ensures t in p.toppings ==> t !in r.toppings && multiset(r.toppings) == multiset(p.toppings)[t := 0]
    ensures t in p.toppings ==> IsSubsequence(r.toppings, p.toppings)
    ensures NoDup(p.toppings) ==> NoDup(r.toppings)
    ensures r == p.(toppings := r.toppings)
  {
    if t in p.toppings then
      NoDupRemoveAll(p.toppings, t);
      p.(toppings := RemoveAll(p.toppings, t))
    else
      p.(toppings := p.toppings + [t])
  }

  /** `handleAddExtraTopping`: the same toggle, on `extraToppings`. */
  function AddExtraTopping(p: CustomPizza, t: Topping): (r: CustomPizza)
    ensures t !in p.extraToppings ==> r.extraToppings == p.extraToppings + [t]
    ensures t in p.extraToppings ==>
      t !in r.extraToppings && multiset(r.extraToppings) == multiset(p.extraToppings)[t := 0]
    ensures t in p.extraToppings ==> IsSubsequence(r.extraToppings, p.extraToppings)
    ensures NoDup(p.extraToppings) ==> NoDup(r.extraToppings)
    ensures r == p.(extraToppings := r.extraToppings)
  {
    if t in p.extraToppings then
      NoDupRemoveAll(p.extraToppings, t);
      p.(extraToppings := RemoveAll(p.extraToppings, t))
    else
      p.(extraToppings := p.extraToppings + [t])
  }

  /** Toggling an unselected topping twice restores the selection. */
  lemma AddToppingTwice(p: CustomPizza, t: Topping)
    requires t !in p.toppings
    ensures AddTopping(AddTopping(p, t), t) == p
  {
    RemoveAllAppended(p.toppings, t);
  }

  /** Toggling an unselected extra topping twice restores the selection. */
  lemma AddExtraToppingTwice(p: CustomPizza, t: Topping)
    requires t !in p.extraToppings
    ensures AddExtraTopping(AddExtraTopping(p, t), t) == p
  {
    RemoveAllAppended(p.extraToppings, t);
  }

  /** An extra-topping toggle moves the price by one fee per entry added or removed. */
  lemma AddExtraToppingPrice(p: CustomPizza, t: Topping)
    ensures t !in p.extraToppings ==>
      CalculatePrice(AddExtraTopping(p, t)) == CalculatePrice(p) + ExtraToppingFee
    ensures t in p.extraToppings ==>
      CalculatePrice(AddExtraTopping(p, t)) ==
        CalculatePrice(p) - ExtraToppingFee * multiset(p.extraToppings)[t]
  {
    if t in p.extraToppings {
      var r := AddExtraTopping(p, t);
      assert |multiset(r.extraToppings)| == |multiset(p.extraToppings)| - multiset(p.extraToppings)[t];
    }
  }

  /** A regular-topping toggle never changes the charged price. */
  lemma AddToppingKeepsPrice(p: CustomPizza, t: Topping)
    ensures CalculatePrice(AddTopping(p, t)) == CalculatePrice(p)
  {
  }

  // ---------------------------------------------------------------------------
  // Step paging
  // ---------------------------------------------------------------------------

  /** `handleNext`: blocked with a toast on the toppings step when nothing is selected, else one step on, at most 6. */
  function HandleNext(b: Builder): (r: Transition)
    ensures b.step == ToppingsStep && |b.pizza.toppings| == 0 ==>
      r.builder == b && r.notice == Some(NoToppingsSelected)
    ensures !(b.step == ToppingsStep && |b.pizza.toppings| == 0) ==>
      r.builder.step == Min(b.step + 1, LastStep) && r.notice == None
    ensures r.builder.pizza == b.pizza && !r.closed
  {
    if b.step == ToppingsStep && |b.pizza.toppings| == 0 then
      Transition(b, Some(NoToppingsSelected), false)
    else
      Transition(b.(step := Min(b.step + 1, LastStep)), None, false)
  }

  /** `handlePrevious`: one step back, at least 1. */
  function HandlePrevious(b: Builder): (r: Builder)
    ensures r.step == Max(b.step - 1, FirstStep)
    ensures r.pizza == b.pizza
  {
    b.(step := Max(b.step - 1, FirstStep))
  }

  /** Previous undoes an unblocked Next taken below the last step. */
  lemma PreviousUndoesNext(b: Builder)
    requires FirstStep <= b.step < LastStep
    requires !(b.step == ToppingsStep && |b.pizza.toppings| == 0)
    ensures HandlePrevious(HandleNext(b).builder) == b
  {
  }

  /** Next undoes Previous taken above the first step, unless it lands on an empty toppings step. */
  lemma NextUndoesPrevious(b: Builder)
    requires FirstStep < b.step <= LastStep
    requires !(b.step == LastStep && |b.pizza.toppings| == 0)
    ensures HandleNext(HandlePrevious(b)).builder == b
  {
  }

  /** `handleComplete`: a "Pizza Added" toast carrying the charged price, then `onClose`. */
  function HandleComplete(b: Builder): (r: Transition)
    ensures r.builder == b && r.closed
    ensures r.notice.Some? && r.notice.value.PizzaAdded?
    ensures r.notice.value.totalCents >= SizePrice(b.pizza.size)
    ensures r.notice == Some(PizzaAdded(SizePrice(b.pizza.size) + ExtraToppingFee * |b.pizza.extraToppings|))
  {
    Transition(b, Some(PizzaAdded(CalculatePrice(b.pizza))), true)
  }

  /** One user action on the wizard. */
  function Apply(b: Builder, e: Event): (r: Transition)
    ensures e.Close? ==> r == Transition(b, None, true)
    ensures !e.Close? && !e.Complete? ==> !r.closed
  {
    match e
    case Next => HandleNext(b)
    case Previous => Transition(HandlePrevious(b), None, false)
    case Close => Transition(b, None, true)
    case Complete => HandleComplete(b)
    case ChooseCrust(c) => Transition(b.(pizza := b.pizza.(crust := c)), None, false)
    case ChooseSize(s) => Transition(b.(pizza := b.pizza.(size := s)), None, false)
    case ChooseSauce(s) => Transition(b.(pizza := b.pizza.(sauce := s)), None, false)
    case ChooseCheese(c) => Transition(b.(pizza := b.pizza.(cheese := c)), None, false)
    case ToggleTopping(t) => Transition(b.(pizza := AddTopping(b.pizza, t)), None, false)
    case ToggleExtraTopping(t) => Transition(b.(pizza := AddExtraTopping(b.pizza, t)), None, false)
  }

  /** The state after a sequence of actions. The dialog keeps its state when it closes. */
  function Run(b: Builder, es: seq<Event>): Builder
    decreases |es|
  {
    if |es| == 0 then b else Run(Apply(b, es[0]).builder, es[1..])
  }

  /** Every action keeps the step within 1..6. */
  lemma ApplyKeepsStepInRange(b: Builder, e: Event)
    requires FirstStep <= b.step <= LastStep
    ensures FirstStep <= Apply(b, e).builder.step <= LastStep
  {
  }

  /** Starting anywhere in 1..6, no sequence of actions leaves 1..6. */
  lemma {:induction false} RunKeepsStepInRange(b: Builder, es: seq<Event>)
    requires FirstStep <= b.step <= LastStep
    ensures FirstStep <= Run(b, es).step <= LastStep
    decreases |es|
  {
    if |es| > 0 {
      ApplyKeepsStepInRange(b, es[0]);
      RunKeepsStepInRange(Apply(b, es[0]).builder, es[1..]);
    }
  }

  /** Running `xs` then `ys` is running `xs + ys`. */
  lemma {:induction false} RunAppend(b: Builder, xs: seq<Event>, ys: seq<Event>)
    ensures Run(b, xs + ys) == Run(Run(b, xs), ys)
    decreases |xs|
  {
    if |xs| > 0 {
      assert (xs + ys)[1..] == xs[1..] + ys;
      RunAppend(Apply(b, xs[0]).builder, xs[1..], ys);
    } else {
      assert xs + ys == ys;
    }
  }

  // ---------------------------------------------------------------------------
  // What the dialog renders, and the states it can reach
  // ---------------------------------------------------------------------------

  /** The actions the dialog offers in state `b`. */
  function Enabled(b: Builder, e: Event): (r: bool)
    ensures e.Close? ==> r
    ensures e.ToggleExtraTopping? ==> !r
    ensures r && e.ToggleTopping? ==> b.step == ToppingsStep && e.topping in Catalogue
    ensures r && e.Previous? ==> Apply(b, e).builder.step == b.step - 1
    ensures r && e.Next? && Apply(b, e).notice == None ==> Apply(b, e).builder.step == b.step + 1
  {
    match e
    case Next => b.step < LastStep
    case Previous => b.step > FirstStep
    case Close => true
    case Complete => b.step >= LastStep
    case ChooseCrust(_) => b.step == 1
    case ChooseSize(_) => b.step == 2
    case ChooseSauce(_) => b.step == 3
    case ChooseCheese(_) => b.step == 4
    case ToggleTopping(t) => b.step == ToppingsStep && t in Catalogue
    case ToggleExtraTopping(_) => false
  }

  /** Every action of `es` is offered in the state it is taken in. */
  predicate EnabledRun(b: Builder, es: seq<Event>)
    decreases |es|
  {
    |es| == 0 || (Enabled(b, es[0]) && EnabledRun(Apply(b, es[0]).builder, es[1..]))
  }

  /** The facts that hold in every state the dialog can reach from its initial state. */
  ghost predicate Reachable(b: Builder) {
    && FirstStep <= b.step <= LastStep
    && NoDup(b.pizza.toppings)
    && (forall t :: t in b.pizza.toppings ==> t in Catalogue)
    && b.pizza.extraToppings == []
    && (b.step == LastStep ==> |b.pizza.toppings| > 0)
  }

  /** Offered actions `xs` followed by actions offered after them form an offered run. */
  lemma {:induction false} EnabledRunAppend(b: Builder, xs: seq<Event>, ys: seq<Event>)
    requires EnabledRun(b, xs) && EnabledRun(Run(b, xs), ys)
    ensures EnabledRun(b, xs + ys)
    decreases |xs|
  {
    if |xs| > 0 {
      assert (xs + ys)[1..] == xs[1..] + ys;
      EnabledRunAppend(Apply(b, xs[0]).builder, xs[1..], ys);
    } else {
      assert xs + ys == ys;
    }
  }

  /** The catalogue lists every topping once. */
  lemma CatalogueNoDup()
    ensures NoDup(Catalogue)
  {
  }

  lemma InitialIsReachable()
    ensures Reachable(Initial)
  {
  }

  /** Every offered action keeps the reachability facts. */
  lemma ApplyKeepsReachable(b: Builder, e: Event)
    requires Reachable(b) && Enabled(b, e)
    ensures Reachable(Apply(b, e).builder)
  {
  }

  /**
   Any sequence of offered actions keeps the step in 1..6, the toppings
   duplicate-free catalogue entries, `extraToppings` empty, and reaches the
   review step only with at least one topping.
   */
  lemma {:induction false} RunKeepsReachable(b: Builder, es: seq<Event>)
    requires Reachable(b) && EnabledRun(b, es)
    ensures Reachable(Run(b, es))
    decreases |es|
  {
    if |es| > 0 {
      ApplyKeepsReachable(b, es[0]);
      RunKeepsReachable(Apply(b, es[0]).builder, es[1..]);
    }
  }

  // ---------------------------------------------------------------------------
  // The charged price against the advertised one
  // ---------------------------------------------------------------------------

  /** As written, a reachable selection is always charged its bare size price. */
  lemma ChargedPriceIgnoresToppings(b: Builder)
    requires Reachable(b)
    ensures CalculatePrice(b.pizza) == SizePrice(b.pizza.size)
    ensures HandleComplete(b).notice == Some(PizzaAdded(SizePrice(b.pizza.size)))
  {
  }

  /** The advertised price: size price plus the fee for each topping beyond the first four. */
  function IntendedPrice(p: CustomPizza): (r: nat)
    ensures r >= SizePrice(p.size)
    ensures r == SizePrice(p.size) <==> |p.toppings| <= MaxIncludedToppings
  {
    SizePrice(p.size) + ExtraToppingFee * ExtraToppingsCount(p.toppings)
  }

  /**
   The advertised price charges the fee once per flagged selected topping; for
   a selection drawn from the catalogue these are the "+$1.50" markers.
   */
  lemma IntendedPriceChargesFlagged(p: CustomPizza)
    requires NoDup(p.toppings)
    ensures IntendedPrice(p) == SizePrice(p.size) + ExtraToppingFee * |Flagged(p.toppings)|
    ensures IntendedPrice(p) == SizePrice(p.size) <==> |p.toppings| <= MaxIncludedToppings
  {
    FlaggedCountIsExtraCount(p.toppings);
  }

  /** Open the wizard, pick Large, page to the toppings step. */
  const ToToppingsStep: seq<Event> := [Next, ChooseSize(Large), Next, Next, Next]

  /** Tick five catalogue toppings, then go to the review step. */
  const TickFiveToppings: seq<Event> := [
    ToggleTopping("Pepperoni"), ToggleTopping("Onions"), ToggleTopping("Olives"),
    ToggleTopping("Bacon"), ToggleTopping("Mushrooms"), Next
  ]

  const FiveToppings: seq<Topping> := ["Pepperoni", "Onions", "Olives", "Bacon", "Mushrooms"]

  /** The opening actions are all offered and land on the toppings step of a large pizza. */
  lemma ToToppingsStepRun()
    ensures EnabledRun(Initial, ToToppingsStep)
    ensures Run(Initial, ToToppingsStep) == Builder(ToppingsStep, InitialPizza.(size := Large))
  {
  }

  /** Ticking an unselected catalogue topping on the toppings step is offered and appends it. */
  lemma TickStep(b: Builder, i: nat, rest: seq<Event>)
    requires b.step == ToppingsStep && i < |Catalogue| && Catalogue[i] !in b.pizza.toppings
    ensures var b' := b.(pizza := b.pizza.(toppings := b.pizza.toppings + [Catalogue[i]]));
      && Run(b, [ToggleTopping(Catalogue[i])] + rest) == Run(b', rest)
      && (EnabledRun(b', rest) ==> EnabledRun(b, [ToggleTopping(Catalogue[i])] + rest))
  {
  }

  /** Ticking the five toppings is offered throughout and ends on the review step. */
  lemma TickFiveToppingsRun()
    ensures
      var b := Builder(ToppingsStep, InitialPizza.(size := Large));
      && EnabledRun(b, TickFiveToppings)
      && Run(b, TickFiveToppings) == Builder(LastStep, b.pizza.(toppings := FiveToppings))
  {
    CatalogueNoDup();
    var c := Catalogue;
    assert FiveToppings == [c[0], c[6], c[8], c[3], c[5]];
    var p0 := InitialPizza.(size := Large);
    var b0 := Builder(5, p0);
    var b1 := Builder(5, p0.(toppings := [c[0]]));
    var b2 := Builder(5, p0.(toppings := [c[0], c[6]]));
    var b3 := Builder(5, p0.(toppings := [c[0], c[6], c[8]]));
    var b4 := Builder(5, p0.(toppings := [c[0], c[6], c[8], c[3]]));
    var b5 := Builder(5, p0.(toppings := FiveToppings));
    var es := TickFiveToppings;
    assert es == [ToggleTopping(c[0])] + es[1..];
    assert es[1..] == [ToggleTopping(c[6])] + es[2..];
    assert es[2..] == [ToggleTopping(c[8])] + es[3..];
    assert es[3..] == [ToggleTopping(c[3])] + es[4..];
    assert es[4..] == [ToggleTopping(c[5])] + es[5..];
    assert es[5..] == [Next];
    assert Run(b5, [Next]) == Builder(LastStep, b5.pizza) && EnabledRun(b5, [Next]);
    assert [] + [c[0]] == [c[0]];
    assert [c[0]] + [c[6]] == [c[0], c[6]];
    assert [c[0], c[6]] + [c[8]] == [c[0], c[6], c[8]];
    assert [c[0], c[6], c[8]] + [c[3]] == [c[0], c[6], c[8], c[3]];
    assert [c[0], c[6], c[8], c[3]] + [c[5]] == FiveToppings;
    TickStep(b4, 5, es[5..]);
    assert Run(b4, es[4..]) == Run(b5, es[5..]);
    TickStep(b3, 3, es[4..]);
    assert Run(b3, es[3..]) == Run(b4, es[4..]);
    TickStep(b2, 8, es[3..]);
    assert Run(b2, es[2..]) == Run(b3, es[3..]);
    TickStep(b1, 6, es[2..]);
    assert Run(b1, es[1..]) == Run(b2, es[2..]);
    TickStep(b0, 0, es[1..]);
    assert Run(b0, es) == Run(b1, es[1..]);
  }

  /** The five scenario toppings are distinct, and only the fifth is marked extra. */
  lemma FiveToppingsFlagged()
    ensures NoDup(FiveToppings)
    ensures Flagged(FiveToppings) == ["Mushrooms"]
  {
    CatalogueNoDup();
    var c := Catalogue;
    assert FiveToppings == [c[0], c[6], c[8], c[3], c[5]];
    FlaggedCountIsExtraCount(FiveToppings);
    assert FiveToppings[4..] == ["Mushrooms"];
  }

  /**
   A large pizza with five catalogue toppings, reached through offered actions:
   one topping is marked extra, the advertised price is 2150 cents, yet the
   completion toast charges 2000.
   */
  lemma FiveToppingsChargedAsFour()
    ensures EnabledRun(Initial, ToToppingsStep + TickFiveToppings)
    ensures
      var b := Run(Initial, ToToppingsStep + TickFiveToppings);
      && b.step == LastStep
      && b.pizza.toppings == FiveToppings
      && Flagged(b.pizza.toppings) == ["Mushrooms"]
      && IntendedPrice(b.pizza) == 2150
      && HandleComplete(b).notice == Some(PizzaAdded(2000))
  {
    var b := Builder(LastStep, InitialPizza.(size := Large, toppings := FiveToppings));
    assert Run(Initial, ToToppingsStep + TickFiveToppings) == b by {
      ToToppingsStepRun();
      TickFiveToppingsRun();
      RunAppend(Initial, ToToppingsStep, TickFiveToppings);
    }
    assert EnabledRun(Initial, ToToppingsStep + TickFiveToppings) by {
      ToToppingsStepRun();
      TickFiveToppingsRun();
      EnabledRunAppend(Initial, ToToppingsStep, TickFiveToppings);
    }
    assert IntendedPrice(b.pizza) == 2150 by {
      assert |FiveToppings| == 5;
    }
    assert CalculatePrice(b.pizza) == 2000;
    FiveToppingsFlagged();
  }

  /** The toppings step blocks Next on an empty selection, whatever the size. */
  lemma EmptyToppingsBlockNext(size: Size)
    ensures
      var b := Builder(ToppingsStep, InitialPizza.(size := size));
      HandleNext(b) == Transition(b, Some(NoToppingsSelected), false)
  {
  }
}

=== FILE: seqs.dfy ===
/**
 Sequence helpers that stand for the JavaScript array operations the two
 components use: `includes`, `indexOf`, `filter` and `String.includes`.
 */
module Seqs {

  /** No element occurs twice. */
  ghost predicate NoDup<T>(xs: seq<T>) {
    forall i, j :: 0 <= i < j < |xs| ==> xs[i] != xs[j]
  }

  /** `a` keeps some of the elements of `b`, in the order they have in `b`. */
  predicate IsSubsequence<T(==)>(a: seq<T>, b: seq<T>)
    decreases |b|
  {
    if |a| == 0 then true
    else if |b| == 0 then false
    else if a[0] == b[0] then IsSubsequence(a[1..], b[1..])
    else IsSubsequence(a, b[1..])
  }

  /** `Array.prototype.indexOf`: the first position of `x`, or -1 when `x` is absent. */
  function IndexOf<T(==)>(xs: seq<T>, x: T): (r: int)
    ensures -1 <= r < |xs|
    ensures r == -1 <==> x !in xs
    ensures 0 <= r ==> xs[r] == x && forall j :: 0 <= j < r ==> xs[j] != x
  {
    if |xs| == 0 then -1
    else if xs[0] == x then 0
    else
      var k := IndexOf(xs[1..], x);
      if k == -1 then -1 else k + 1
  }

  /** `xs.filter(y => y !== x)`: every occurrence of `x` removed, everything else kept in order. */
  function RemoveAll<T(==,!new)>(xs: seq<T>, x: T): (r: seq<T>)
    ensures multiset(r) == multiset(xs)[x := 0]
    ensures x !in r
    ensures forall y :: y != x ==> (y in r <==> y in xs)
    ensures IsSubsequence(r, xs)
  {
    if |xs| == 0 then []
    else
      assert xs == [xs[0]] + xs[1..];
      var rest := RemoveAll(xs[1..], x);
      if xs[0] == x then rest else [xs[0]] + rest
  }

  /** `xs.filter(y => !ys.includes(y))`, in the order of `xs`. */
  function Without<T(==,!new)>(xs: seq<T>, ys: seq<T>): (r: seq<T>)
    ensures forall y :: y in r <==> y in xs && y !in ys
    ensures forall y :: multiset(r)[y] == if y in ys then 0 else multiset(xs)[y]
    ensures IsSubsequence(r, xs)
  {
    if |xs| == 0 then []
    else
      assert xs == [xs[0]] + xs[1..];
      var rest := Without(xs[1..], ys);
      if xs[0] in ys then rest else [xs[0]] + rest
  }

  /** `s.includes(p)` on strings: `p` occurs in `s` at some position. */
  function Contains(s: string, p: string): (r: bool)
    ensures r <==> exists i :: 0 <= i <= |s| && p <= s[i..]
    decreases |s|
  {
    if p <= s then
      assert s[0..] == s;
      true
    else if |s| == 0 then false
    else
      var r := Contains(s[1..], p);
      assert forall i :: 1 <= i <= |s| ==> s[i..] == s[1..][i - 1..];
      r
  }

  /** A list with `a` in front is duplicate-free exactly when its tail is and does not hold `a`. */
  lemma NoDupCons<T>(a: T, xs: seq<T>)
    ensures NoDup([a] + xs) <==> a !in xs && NoDup(xs)
  {
    var ys := [a] + xs;
    if NoDup(ys) {
      forall i, j | 0 <= i < j < |xs| ensures xs[i] != xs[j] {
        assert ys[i + 1] == xs[i] && ys[j + 1] == xs[j];
      }
      forall k | 0 <= k < |xs| ensures xs[k] != a {
        assert ys[0] != ys[k + 1];
      }
    }
  }

  /** Filtering an element out of a duplicate-free list leaves it duplicate-free. */
  lemma {:induction false} NoDupRemoveAll<T(!new)>(xs: seq<T>, x: T)
    ensures NoDup(xs) ==> NoDup(RemoveAll(xs, x))
  {
    if |xs| > 0 && NoDup(xs) {
      assert xs == [xs[0]] + xs[1..];
      NoDupCons(xs[0], xs[1..]);
      NoDupRemoveAll(xs[1..], x);
      if xs[0] != x {
        NoDupCons(xs[0], RemoveAll(xs[1..], x));
      }
    }
  }

  /** Appending an absent `x` and then filtering `x` out gives back the list. */
  lemma {:induction false} RemoveAllAppended<T(!new)>(xs: seq<T>, x: T)
    requires x !in xs
    ensures RemoveAll(xs + [x], x) == xs
  {
    if |xs| == 0 {
      assert xs + [x] == [x];
    } else {
      assert (xs + [x])[1..] == xs[1..] + [x];
      RemoveAllAppended(xs[1..], x);
      assert xs == [xs[0]] + xs[1..];
    }
  }
}

=== FILE: voice_widget.dfy ===
/**
 The voice-assistant widget as a deterministic reducer. The SDK is abstract:
 its events and the outcomes of its `start`/`stop` promises are inputs, and
 the calls the widget makes into it are outputs (`SdkRequest`). Everything a
 React state setter does in one handler is applied in order, as the batched
 update would leave it.
 */
module VoiceWidget {
  import opened Options
  import opened Seqs

  datatype Speaker = User | Assistant | System

  /** One chat-log line. The source's `Date.now()`-based id is not modelled. */
  datatype ChatMessage = ChatMessage(speaker: Speaker, text: string)

  /** A JavaScript value, as far as the order-payload checks look at it. */
  datatype JsValue = Undefined | Null | Bool(b: bool) | Num(n: int) | Str(s: string) | Object

  /** The order summary the widget displays. */
  datatype OrderDetails = OrderDetails(description: string, total: JsValue)

  /** The status field, which is set but never rendered; each constructor is one string the source writes. */
  datatype CallStatus =
    | Idle                          // 'Idle'
    | MissingApiKey                 // 'Error: Missing API Key'
    | Connecting                    // 'Connecting...'
    | CallActiveListening           // 'Call Active - Listening...'
    | CallEnded                     // 'Call Ended'
    | AssistantSpeaking             // 'Assistant Speaking...'
    | Listening                     // 'Listening...'
    | OrderDetailsReceived          // 'Order Details Received'
    | EndingCall                    // 'Ending Call...'
    | ErrorStatus(detail: string)   // `Error: ${detail}...`
    | Failed(detail: string)        // `Failed: ${detail}...`

  /** The widget's state; `hasSession` says whether the SDK instance is held (`vapi !== null`). */
  datatype WidgetState = WidgetState(
    isWidgetOpen: bool,
    isCallActive: bool,
    hasSession: bool,
    error: Option<string>,
    callStatus: CallStatus,
    displayOrder: Option<OrderDetails>,
    chatLog: seq<ChatMessage>)

  /** `message.functionCall.parameters`; `None` for a falsy value. */
  datatype Params = Params(description: JsValue, total: JsValue)

  /** `message.functionCall`; `None` when absent. */
  datatype FunctionCall = FunctionCall(name: string, parameters: Option<Params>)

  /**
   A `message` event. An absent string field is modelled by a string equal to
   none of the literals the handler compares it with.
   */
  datatype Message = Message(
    kind: string,
    transcriptType: string,
    role: string,
    transcript: string,
    functionCall: Option<FunctionCall>)

  datatype SdkEvent =
    | CallStart
    | CallEnd
    | SpeechStart
    | SpeechEnd
    | MessageEvent(message: Message)
    | ErrorEvent(payload: ErrorPayload)

  /**
   What an `error` event hands its listener: an object with a string
   `message`, an object without one, or `null`/`undefined`.
   */
  datatype ErrorPayload = WithMessage(message: string) | WithoutMessage | Nullish

  /** A value a rejected promise carries: an `Error` with its message, or anything else. */
  datatype Thrown = ErrorInstance(message: string) | NonError

  datatype Input =
    | ToggleWidget
    | StartCall
    | EndCall
    | Sdk(event: SdkEvent)
    | StartResolved
    | StartRejected(startError: Thrown)
    | StopResolved
    | StopRejected(stopError: Thrown)

  /** What a handler asks of the SDK: construct an instance and `start` it, or `stop` the held one. */
  datatype SdkRequest = NoRequest | CreateAndStart | Stop

  datatype Reaction = Reaction(state: WidgetState, request: SdkRequest)

  const MissingKeyError := "Missing Vapi Public Key"
  /** The mount-time notice; it starts with `MissingKeyError`. */
  const MissingKeyNotice :=
    MissingKeyError + ". Please set VITE_VAPI_PUBLIC_KEY in your .env file for the vapi-pizza project."
  const UnknownStartError := "Unknown error occurred"
  const UnknownStopError := "Error stopping call"
  const StatusDetailLength := 30

  /** `s.substring(0, 30)`. */
  function Truncate(s: string): (r: string)
    ensures |r| <= StatusDetailLength && r <= s
    ensures |s| <= StatusDetailLength ==> r == s
    ensures |s| > StatusDetailLength ==> |r| == StatusDetailLength
  {
    if |s| <= StatusDetailLength then s else s[..StatusDetailLength]
  }

  /** The message a caught value contributes: its `message` if it is an `Error`, else the fallback. */
  function MessageOf(t: Thrown, fallback: string): (r: string)
    ensures t.ErrorInstance? ==> r == t.message
    ensures t.NonError? ==> r == fallback
  {
    match t
    case ErrorInstance(m) => m
    case NonError => fallback
  }

  /** The state on mount; without a public key the missing-key notice is recorded at once, with the panel closed. */
  function Mount(hasKey: bool): (s: WidgetState)
    ensures !s.isWidgetOpen && !s.isCallActive && !s.hasSession
    ensures s.displayOrder == None && s.chatLog == []
    ensures hasKey <==> s.error == None
    ensures hasKey ==> s.callStatus == Idle
    ensures !hasKey ==> Contains(s.error.value, MissingKeyError) && s.callStatus == MissingApiKey
  {
    var s := WidgetState(false, false, false, None, Idle, None, []);
    if hasKey then s
    else
      assert MissingKeyNotice[..|MissingKeyError|] == MissingKeyError;
      assert MissingKeyNotice[0..] == MissingKeyNotice;
      s.(error := Some(MissingKeyNotice), callStatus := MissingApiKey)
  }

  // ---------------------------------------------------------------------------
  // User actions
  // ---------------------------------------------------------------------------

  /**
   `endCall`, up to its `await`. With a session it only sets the status to "Ending Call..."
   and asks the SDK to stop; without one it resets the call locally.
   */
  function EndCallNow(s: WidgetState): (r: Reaction)
    ensures s.hasSession ==> r == Reaction(s.(callStatus := EndingCall), Stop)
    ensures !s.hasSession ==>
      && r.request == NoRequest
      && !r.state.isCallActive && r.state.callStatus == Idle
      && r.state.displayOrder == None && r.state.chatLog == []
      && r.state == s.(isCallActive := false, callStatus := Idle, displayOrder := None, chatLog := [])
  {
    var s1 := s.(callStatus := EndingCall);
    if s.hasSession then Reaction(s1, Stop)
    else Reaction(s1.(isCallActive := false, callStatus := Idle, displayOrder := None, chatLog := []), NoRequest)
  }

  /** `stop` rejected: the error is recorded and the call is force-reset, session released. */
  function StopFailed(s: WidgetState, t: Thrown): (r: WidgetState)
    ensures r.error == Some(MessageOf(t, UnknownStopError))
    ensures !r.isCallActive && !r.hasSession && r.callStatus == Idle
    ensures r.displayOrder == None && r.chatLog == []
    ensures r.isWidgetOpen == s.isWidgetOpen
  {
    s.(error := Some(MessageOf(t, UnknownStopError)), isCallActive := false, hasSession := false,
       callStatus := Idle, displayOrder := None, chatLog := [])
  }

  /**
   `toggleWidget`: flip the panel, end the call first when closing an open panel
   during an active call, and clear the error.
   */
  function Toggle(s: WidgetState): (r: Reaction)
    ensures r.state.isWidgetOpen == !s.isWidgetOpen
    ensures r.state.error == None
    ensures !(s.isWidgetOpen && s.isCallActive) ==>
      r == Reaction(s.(isWidgetOpen := !s.isWidgetOpen, error := None), NoRequest)
    ensures s.isWidgetOpen && s.isCallActive && s.hasSession ==>
      r == Reaction(s.(isWidgetOpen := false, error := None, callStatus := EndingCall), Stop)
    ensures s.isWidgetOpen && s.isCallActive && !s.hasSession ==>
      && r.request == NoRequest
      && !r.state.isCallActive && r.state.callStatus == Idle
      && r.state.displayOrder == None && r.state.chatLog == [] && !r.state.hasSession
      && r.state == s.(isWidgetOpen := false, error := None, isCallActive := false,
                       callStatus := Idle, displayOrder := None, chatLog := [])
  {
    var s1 := s.(isWidgetOpen := !s.isWidgetOpen);
    var r1 := if s.isCallActive && s.isWidgetOpen then EndCallNow(s1) else Reaction(s1, NoRequest);
    Reaction(r1.state.(error := None), r1.request)
  }

  /** Toggling twice with no active call restores the widget, with the error cleared. */
  lemma ToggleTwice(s: WidgetState)
    requires !s.isCallActive
    ensures Toggle(Toggle(s).state).state == s.(error := None)
    ensures Toggle(s).request == NoRequest && Toggle(Toggle(s).state).request == NoRequest
  {
  }

  /**
   `startCall`, up to its `await`: clear the error and the log, set the status to
   "Connecting...". Without a public key it fails at once and never asks for a
   session; with one it asks the SDK to create and start an instance.
   */
  function StartCallNow(s: WidgetState, hasKey: bool): (r: Reaction)
    ensures r.state.chatLog == []
    ensures r.state.isWidgetOpen == s.isWidgetOpen && r.state.displayOrder == s.displayOrder
    ensures !hasKey ==>
      && r.request == NoRequest
      && !r.state.isCallActive && !r.state.hasSession
      && r.state.error == Some(MissingKeyError)
      && r.state.callStatus == Failed(MissingKeyError)
    ensures hasKey ==>
      && r.request == CreateAndStart
      && r.state == s.(error := None, callStatus := Connecting, chatLog := [])
  {
    var s1 := s.(error := None, callStatus := Connecting, chatLog := []);
    if !hasKey then
      Reaction(s1.(error := Some(MissingKeyError), callStatus := Failed(Truncate(MissingKeyError)),
                   isCallActive := false, hasSession := false), NoRequest)
    else
      Reaction(s1, CreateAndStart)
  }

  /** `start` rejected: the catch block records the error and releases the session. */
  function StartFailed(s: WidgetState, t: Thrown): (r: WidgetState)
    ensures r.error == Some(MessageOf(t, UnknownStartError))
    ensures r.callStatus == Failed(Truncate(MessageOf(t, UnknownStartError)))
    ensures !r.isCallActive && !r.hasSession
    ensures r.chatLog == s.chatLog && r.displayOrder == s.displayOrder
    ensures r == s.(error := Some(MessageOf(t, UnknownStartError)),
                    callStatus := Failed(Truncate(MessageOf(t, UnknownStartError))),
                    isCallActive := false, hasSession := false)
  {
    var m := MessageOf(t, UnknownStartError);
    s.(error := Some(m), callStatus := Failed(Truncate(m)), isCallActive := false, hasSession := false)
  }

  // ---------------------------------------------------------------------------
  // SDK events
  // ---------------------------------------------------------------------------

  /** `call-start`: the call is active and listening, the error cleared. */
  function OnCallStart(s: WidgetState): (r: WidgetState)
    ensures r.isCallActive && r.error == None && r.callStatus == CallActiveListening
    ensures r == s.(isCallActive := true, error := None, callStatus := CallActiveListening)
  {
    s.(isCallActive := true, callStatus := CallActiveListening, error := None)
  }

  /** `call-end`: nothing of the finished call survives, whatever held before. */
  function OnCallEnd(s: WidgetState): (r: WidgetState)
    ensures !r.isCallActive && !r.hasSession && r.callStatus == CallEnded
    ensures r.displayOrder == None && r.chatLog == []
    ensures r.isWidgetOpen == s.isWidgetOpen && r.error == s.error
  {
    s.(isCallActive := false, hasSession := false, callStatus := CallEnded, displayOrder := None, chatLog := [])
  }

  /** `speech-start` and `speech-end` change the status field only. */
  function OnSpeech(s: WidgetState, started: bool): (r: WidgetState)
    ensures r == s.(callStatus := r.callStatus)
    ensures r.callStatus == (if started then AssistantSpeaking else Listening)
  {
    s.(callStatus := if started then AssistantSpeaking else Listening)
  }

  /**
   `error`: record the message, end the call, release the session. Without a
   string `message` the handler stops early: `err.message` is `undefined`, so
   the error is cleared and then `substring` throws before anything else runs;
   on `null`/`undefined` it throws at once and nothing changes.
   */
  function OnError(s: WidgetState, p: ErrorPayload): (r: WidgetState)
    ensures p.WithMessage? ==>
      && r.error == Some(p.message) && !r.isCallActive && !r.hasSession
      && r.callStatus == ErrorStatus(Truncate(p.message))
    ensures p.WithoutMessage? ==> r == s.(error := None)
    ensures p.Nullish? ==> r == s
    ensures r.chatLog == s.chatLog && r.displayOrder == s.displayOrder && r.isWidgetOpen == s.isWidgetOpen
  {
    match p
    case WithMessage(m) =>
      s.(error := Some(m), callStatus := ErrorStatus(Truncate(m)), isCallActive := false, hasSession := false)
    case WithoutMessage => s.(error := None)
    case Nullish => s
  }

  /** The chat line a final user or assistant transcript contributes. */
  function TranscriptLine(m: Message): (r: Option<ChatMessage>)
    ensures r.Some? <==>
      m.kind == "transcript" && m.transcriptType == "final" && (m.role == "user" || m.role == "assistant")
    ensures r.Some? ==> r.value.text == m.transcript
    ensures r.Some? ==> (r.value.speaker == User <==> m.role == "user")
    ensures r.Some? ==> r.value.speaker != System
  {
    if m.kind == "transcript" && m.transcriptType == "final" && m.role == "user" then
      Some(ChatMessage(User, m.transcript))
    else if m.kind == "transcript" && m.transcriptType == "final" && m.role == "assistant" then
      Some(ChatMessage(Assistant, m.transcript))
    else None
  }

  /** A well-formed `display_order` function call: a string description and a defined total. */
  function OrderPayload(m: Message): (r: Option<OrderDetails>)
    ensures r.Some? <==>
      && m.kind == "function-call"
      && m.functionCall.Some? && m.functionCall.value.name == "display_order"
      && m.functionCall.value.parameters.Some?
      && m.functionCall.value.parameters.value.description.Str?
      && !m.functionCall.value.parameters.value.total.Undefined?
    ensures r.Some? ==>
      var params := m.functionCall.value.parameters.value;
      r.value == OrderDetails(params.description.s, params.total)
  {
    if m.kind == "function-call" && m.functionCall.Some? && m.functionCall.value.name == "display_order" then
      match m.functionCall.value.parameters
      case Some(params) =>
        if params.description.Str? && !params.total.Undefined? then
          Some(OrderDetails(params.description.s, params.total))
        else None
      case None => None
    else None
  }

  /**
   `message`: a final user/assistant transcript appends one chat line; a valid
   `display_order` call replaces the order summary (last write wins). Nothing
   else changes.
   */
  function OnMessage(s: WidgetState, m: Message): (r: WidgetState)
    ensures TranscriptLine(m).Some? ==> r.chatLog == s.chatLog + [TranscriptLine(m).value]
    ensures TranscriptLine(m).None? ==> r.chatLog == s.chatLog
    ensures OrderPayload(m).Some? ==> r.displayOrder == OrderPayload(m) && r.callStatus == OrderDetailsReceived
    ensures OrderPayload(m).None? ==> r.displayOrder == s.displayOrder && r.callStatus == s.callStatus
    ensures r == s.(chatLog := r.chatLog, displayOrder := r.displayOrder, callStatus := r.callStatus)
  {
    var s1 := match TranscriptLine(m)
      case Some(line) => s.(chatLog := s.chatLog + [line])
      case None => s;
    match OrderPayload(m)
    case Some(order) => s1.(displayOrder := Some(order), callStatus := OrderDetailsReceived)
    case None => s1
  }

  /** Interim transcripts never touch the log. */
  lemma InterimTranscriptIgnored(s: WidgetState, m: Message)
    requires m.transcriptType != "final"
    ensures OnMessage(s, m).chatLog == s.chatLog
  {
  }

  /** One SDK event. */
  function OnSdkEvent(s: WidgetState, e: SdkEvent): (r: WidgetState)
    ensures r.hasSession ==> s.hasSession
    ensures r.isCallActive && !s.isCallActive ==> e.CallStart?
    ensures r.isWidgetOpen == s.isWidgetOpen
    ensures r.chatLog != s.chatLog ==> e.CallEnd? || e.MessageEvent?
    ensures r.displayOrder != s.displayOrder ==> e.CallEnd? || e.MessageEvent?
  {
    match e
    case CallStart => OnCallStart(s)
    case CallEnd => OnCallEnd(s)
    case SpeechStart => OnSpeech(s, true)
    case SpeechEnd => OnSpeech(s, false)
    case MessageEvent(m) => OnMessage(s, m)
    case ErrorEvent(p) => OnError(s, p)
  }

  // ---------------------------------------------------------------------------
  // The reducer
  // ---------------------------------------------------------------------------

  /** One input. `hasKey` says whether the public key is configured. */
  function Apply(s: WidgetState, hasKey: bool, i: Input): (r: Reaction)
    ensures r.request == CreateAndStart ==> i.StartCall? && hasKey
    ensures r.request == Stop ==> s.hasSession && (i.EndCall? || i.ToggleWidget?)
    ensures r.state.hasSession && !s.hasSession ==> i.StartResolved?
  {
    match i
    case ToggleWidget => Toggle(s)
    case StartCall => StartCallNow(s, hasKey)
    case EndCall => EndCallNow(s)
    case Sdk(e) => Reaction(OnSdkEvent(s, e), NoRequest)
    case StartResolved => Reaction(s.(hasSession := true), NoRequest)
    case StartRejected(t) => Reaction(StartFailed(s, t), NoRequest)
    case StopResolved => Reaction(s, NoRequest)
    case StopRejected(t) => Reaction(StopFailed(s, t), NoRequest)
  }

  /** The state after a sequence of inputs. */
  function Run(s: WidgetState, hasKey: bool, inputs: seq<Input>): WidgetState
    decreases |inputs|
  {
    if |inputs| == 0 then s else Run(Apply(s, hasKey, inputs[0]).state, hasKey, inputs[1..])
  }

  /** The SDK requests a sequence of inputs issues, in order. */
  function Requests(s: WidgetState, hasKey: bool, inputs: seq<Input>): seq<SdkRequest>
    decreases |inputs|
  {
    if |inputs| == 0 then []
    else
      var r := Apply(s, hasKey, inputs[0]);
      [r.request] + Requests(r.state, hasKey, inputs[1..])
  }

  lemma {:induction false} RunAppend(s: WidgetState, hasKey: bool, xs: seq<Input>, ys: seq<Input>)
    ensures Run(s, hasKey, xs + ys) == Run(Run(s, hasKey, xs), hasKey, ys)
    decreases |xs|
  {
    if |xs| > 0 {
      assert (xs + ys)[1..] == xs[1..] + ys;
      RunAppend(Apply(s, hasKey, xs[0]).state, hasKey, xs[1..], ys);
    } else {
      assert xs + ys == ys;
    }
  }

  /** Whatever came before, a `call-end` leaves an empty log, no order, no call and no session. */
  lemma CallEndClearsEverything(s: WidgetState, hasKey: bool, inputs: seq<Input>)
    ensures
      var r := Run(s, hasKey, inputs + [Sdk(CallEnd)]);
      r.chatLog == [] && r.displayOrder == None && !r.isCallActive && !r.hasSession
  {
    RunAppend(s, hasKey, inputs, [Sdk(CallEnd)]);
  }

  /** The user actions: the only inputs possible before any SDK instance exists. */
  predicate IsUserAction(i: Input) {
    i.ToggleWidget? || i.StartCall? || i.EndCall?
  }

  /**
   Without a public key, no sequence of user actions ever asks for an SDK
   instance, and the widget never comes to hold a session.
   */
  lemma {:induction false} NoKeyNeverStartsSession(s: WidgetState, inputs: seq<Input>)
    requires !s.hasSession
    requires forall k :: 0 <= k < |inputs| ==> IsUserAction(inputs[k])
    ensures CreateAndStart !in Requests(s, false, inputs)
    ensures !Run(s, false, inputs).hasSession
    decreases |inputs|
  {
    if |inputs| > 0 {
      var r := Apply(s, false, inputs[0]);
      NoKeyNeverStartsSession(r.state, inputs[1..]);
    }
  }

  // ---------------------------------------------------------------------------
  // Streams of messages
  // ---------------------------------------------------------------------------

  /** Messages delivered one after another as `message` events. */
  function MessageInputs(ms: seq<Message>): (r: seq<Input>)
    ensures |r| == |ms|
    ensures forall k :: 0 <= k < |ms| ==> r[k] == Sdk(MessageEvent(ms[k]))
  {
    seq(|ms|, k requires 0 <= k < |ms| => Sdk(MessageEvent(ms[k])))
  }

  /** Reference: the chat lines of the final user/assistant transcripts among `ms`, in arrival order. */
  function Transcripts(ms: seq<Message>): seq<ChatMessage>
    decreases |ms|
  {
    if |ms| == 0 then []
    else
      (match TranscriptLine(ms[0]) case Some(line) => [line] case None => []) + Transcripts(ms[1..])
  }

  /** A stream of messages appends exactly its final transcripts to the log, in arrival order. */
  lemma {:induction false} MessagesAppendTranscripts(s: WidgetState, hasKey: bool, ms: seq<Message>)
    ensures Run(s, hasKey, MessageInputs(ms)).chatLog == s.chatLog + Transcripts(ms)
    decreases |ms|
  {
    if |ms| == 0 {
      assert s.chatLog + [] == s.chatLog;
    } else {
      var s1 := OnMessage(s, ms[0]);
      var line := match TranscriptLine(ms[0]) case Some(l) => [l] case None => [];
      assert s1.chatLog == s.chatLog + line;
      assert Transcripts(ms) == line + Transcripts(ms[1..]);
      assert MessageInputs(ms)[1..] == MessageInputs(ms[1..]);
      assert Run(s, hasKey, MessageInputs(ms)) == Run(s1, hasKey, MessageInputs(ms[1..]));
      MessagesAppendTranscripts(s1, hasKey, ms[1..]);
      assert s.chatLog + line + Transcripts(ms[1..]) == s.chatLog + (line + Transcripts(ms[1..]));
    }
  }

  /**
   Last write wins: after a stream of messages the order summary is the one
   carried by the last valid `display_order` call, or the earlier one if none was.
   */
  lemma {:induction false} LastOrderWins(s: WidgetState, hasKey: bool, ms: seq<Message>)
    ensures (forall k :: 0 <= k < |ms| ==> OrderPayload(ms[k]).None?) ==>
      Run(s, hasKey, MessageInputs(ms)).displayOrder == s.displayOrder
    ensures forall k :: (0 <= k < |ms| && OrderPayload(ms[k]).Some? &&
        (forall j :: k < j < |ms| ==> OrderPayload(ms[j]).None?)) ==>
      Run(s, hasKey, MessageInputs(ms)).displayOrder == OrderPayload(ms[k])
    decreases |ms|
  {
    if |ms| > 0 {
      var s1 := OnMessage(s, ms[0]);
      assert MessageInputs(ms)[1..] == MessageInputs(ms[1..]);
      assert Run(s, hasKey, MessageInputs(ms)) == Run(s1, hasKey, MessageInputs(ms[1..]));
      LastOrderWins(s1, hasKey, ms[1..]);
      forall k | 0 <= k < |ms| && OrderPayload(ms[k]).Some? &&
          (forall j :: k < j < |ms| ==> OrderPayload(ms[j]).None?)
        ensures Run(s, hasKey, MessageInputs(ms)).displayOrder == OrderPayload(ms[k])
      {
        if k > 0 {
          assert ms[1..][k - 1] == ms[k];
          assert forall j :: k - 1 < j < |ms| - 1 ==> ms[1..][j] == ms[j + 1];
        } else {
          assert forall j :: 0 <= j < |ms| - 1 ==> ms[1..][j] == ms[j + 1];
        }
      }
    }
  }

  /** The chat log holds no `System` line. */
  ghost predicate NoSystemLine(log: seq<ChatMessage>) {
    forall k :: 0 <= k < |log| ==> log[k].speaker != System
  }

  lemma ApplyNoSystemLine(s: WidgetState, hasKey: bool, i: Input)
    requires NoSystemLine(s.chatLog)
    ensures NoSystemLine(Apply(s, hasKey, i).state.chatLog)
  {
  }

  /** No input ever writes a `System` line to the chat log. */
  lemma {:induction false} NoSystemLines(s: WidgetState, hasKey: bool, inputs: seq<Input>)
    requires NoSystemLine(s.chatLog)
    ensures NoSystemLine(Run(s, hasKey, inputs).chatLog)
    decreases |inputs|
  {
    if |inputs| > 0 {
      ApplyNoSystemLine(s, hasKey, inputs[0]);
      NoSystemLines(Apply(s, hasKey, inputs[0]).state, hasKey, inputs[1..]);
    }
  }

  // ---------------------------------------------------------------------------
  // The Start button
  // ---------------------------------------------------------------------------

  /** The Start button is shown (open panel, no active call) and not disabled by a missing-key error. */
  function StartEnabled(s: WidgetState): (r: bool)
    ensures r ==> s.isWidgetOpen && !s.isCallActive
    ensures s.isWidgetOpen && !s.isCallActive && s.error == None ==> r
    ensures s.error.Some? && Contains(s.error.value, MissingKeyError) ==> !r
    ensures s.isWidgetOpen && !s.isCallActive && (s.error.None? || !Contains(s.error.value, MissingKeyError)) ==> r
  {
    s.isWidgetOpen && !s.isCallActive && !(s.error.Some? && Contains(s.error.value, MissingKeyError))
  }

  /** A Start attempt without a public key disables the Start button. */
  lemma MissingKeyDisablesStart(s: WidgetState)
    ensures !StartEnabled(StartCallNow(s, false).state)
  {
  }

  /**
   The missing-key notice raised on mount is cleared by the toggle that opens
   the panel, so the Start button is enabled when the panel first opens.
   */
  lemma OpeningClearsMountNotice()
    ensures Mount(false).error.Some?
    ensures StartEnabled(Toggle(Mount(false)).state)
  {
  }

  /** As written, the Start button stays enabled while the first call is still connecting. */
  lemma StartEnabledWhileConnecting(s: WidgetState)
    requires s.isWidgetOpen && !s.isCallActive
    ensures var r := StartCallNow(s, true);
      && r.request == CreateAndStart
      && r.state.callStatus == Connecting
      && StartEnabled(r.state)
      && StartCallNow(r.state, true).request == CreateAndStart
  {
  }

  /** Opening the panel and pressing Start twice asks the SDK for two instances. */
  lemma TwoStartsFromOnePanel()
    ensures var panel := Toggle(Mount(true)).state;
      && StartEnabled(panel)
      && StartEnabled(StartCallNow(panel, true).state)
      && Requests(panel, true, [StartCall, StartCall]) == [CreateAndStart, CreateAndStart]
  {
  }

  /** As written, a `speech-start` while connecting replaces "Connecting..." and Start creates a second instance. */
  lemma SpeechStartReopensStart()
    ensures var panel := Toggle(Mount(true)).state;
      Requests(panel, true, [StartCall, Sdk(SpeechStart), StartCall]) == [CreateAndStart, NoRequest, CreateAndStart]
  {
  }

  // ---------------------------------------------------------------------------
  // A Start guard that knows whether a start is pending
  // ---------------------------------------------------------------------------

  /** The widget plus whether a `start` it requested is still waiting for its promise to settle. */
  datatype Guarded = Guarded(widget: WidgetState, startPending: bool)

  datatype GuardedReaction = GuardedReaction(guarded: Guarded, request: SdkRequest)

  /** How many SDK instances the widget answers for: one being started, one held. */
  function Live(g: Guarded): (r: nat)
    ensures r <= 2
    ensures r == 0 <==> !g.startPending && !g.widget.hasSession
  {
    (if g.startPending then 1 else 0) + (if g.widget.hasSession then 1 else 0)
  }

  /**
   The corrected guard: no new start while a call is being started or a
   session is held, on top of the Start button's own conditions.
   */
  function StartAllowed(g: Guarded): (r: bool)
    ensures r <==> StartEnabled(g.widget) && Live(g) == 0
  {
    StartEnabled(g.widget) && !g.startPending && !g.widget.hasSession
  }

  /**
   One input under the corrected guard: Start is taken only when allowed, and
   a promise outcome settles the pending start (none arrives without one).
   Every other input acts as written.
   */
  function GuardedApply(g: Guarded, hasKey: bool, i: Input): (r: GuardedReaction)
    ensures r.request == CreateAndStart ==> StartAllowed(g) && r.guarded.startPending
    ensures r.guarded.startPending != g.startPending ==> i.StartCall? || i.StartResolved? || i.StartRejected?
    ensures (i.StartResolved? || i.StartRejected?) && g.startPending ==> !r.guarded.startPending
    ensures !i.StartCall? && !i.StartResolved? && !i.StartRejected? ==>
      r == GuardedReaction(Guarded(Apply(g.widget, hasKey, i).state, g.startPending), Apply(g.widget, hasKey, i).request)
    ensures i.StartCall? && StartAllowed(g) ==>
      r.guarded.widget == StartCallNow(g.widget, hasKey).state && r.request == StartCallNow(g.widget, hasKey).request
  {
    match i
    case StartCall =>
      if StartAllowed(g) then
        var a := StartCallNow(g.widget, hasKey);
        GuardedReaction(Guarded(a.state, a.request == CreateAndStart), a.request)
      else GuardedReaction(g, NoRequest)
    case StartResolved =>
      if g.startPending then GuardedReaction(Guarded(g.widget.(hasSession := true), false), NoRequest)
      else GuardedReaction(g, NoRequest)
    case StartRejected(t) =>
      if g.startPending then GuardedReaction(Guarded(StartFailed(g.widget, t), false), NoRequest)
      else GuardedReaction(g, NoRequest)
    case _ =>
      var a := Apply(g.widget, hasKey, i);
      GuardedReaction(Guarded(a.state, g.startPending), a.request)
  }

  function GuardedRun(g: Guarded, hasKey: bool, inputs: seq<Input>): Guarded
    decreases |inputs|
  {
    if |inputs| == 0 then g else GuardedRun(GuardedApply(g, hasKey, inputs[0]).guarded, hasKey, inputs[1..])
  }

  function GuardedRequests(g: Guarded, hasKey: bool, inputs: seq<Input>): (r: seq<SdkRequest>)
    ensures |r| == |inputs|
    decreases |inputs|
  {
    if |inputs| == 0 then []
    else
      var r := GuardedApply(g, hasKey, inputs[0]);
      [r.request] + GuardedRequests(r.guarded, hasKey, inputs[1..])
  }

  lemma GuardedApplyKeepsOneLive(g: Guarded, hasKey: bool, i: Input)
    requires Live(g) <= 1
    ensures Live(GuardedApply(g, hasKey, i).guarded) <= 1
  {
  }

  /** Under the corrected guard the widget never answers for more than one SDK instance. */
  lemma {:induction false} GuardedRunKeepsOneLive(g: Guarded, hasKey: bool, inputs: seq<Input>)
    requires Live(g) <= 1
    ensures Live(GuardedRun(g, hasKey, inputs)) <= 1
    decreases |inputs|
  {
    if |inputs| > 0 {
      GuardedApplyKeepsOneLive(g, hasKey, inputs[0]);
      GuardedRunKeepsOneLive(GuardedApply(g, hasKey, inputs[0]).guarded, hasKey, inputs[1..]);
    }
  }

  /**
   Every instance the guarded widget asks for is asked for when it answers for
   none: no start is pending and no session is held.
   */
  lemma {:induction false} GuardedCreatesOnlyWhenNoneLive(g: Guarded, hasKey: bool, inputs: seq<Input>, k: nat)
    requires k < |inputs|
    requires GuardedRequests(g, hasKey, inputs)[k] == CreateAndStart
    ensures Live(GuardedRun(g, hasKey, inputs[..k])) == 0
    decreases |inputs|
  {
    var g1 := GuardedApply(g, hasKey, inputs[0]).guarded;
    if k == 0 {
      assert inputs[..0] == [];
    } else {
      assert inputs[..k][1..] == inputs[1..][..k - 1];
      assert GuardedRequests(g, hasKey, inputs)[k] == GuardedRequests(g1, hasKey, inputs[1..])[k - 1];
      GuardedCreatesOnlyWhenNoneLive(g1, hasKey, inputs[1..], k - 1);
    }
  }

  /** While a start is pending and its promise has not settled, no input makes the guarded widget start again. */
  lemma {:induction false} NoSecondStartWhilePending(g: Guarded, hasKey: bool, inputs: seq<Input>)
    requires g.startPending
    requires forall k :: 0 <= k < |inputs| ==> !inputs[k].StartResolved? && !inputs[k].StartRejected?
    ensures CreateAndStart !in GuardedRequests(g, hasKey, inputs)
    ensures GuardedRun(g, hasKey, inputs).startPending
    decreases |inputs|
  {
    if |inputs| > 0 {
      var r := GuardedApply(g, hasKey, inputs[0]);
      NoSecondStartWhilePending(r.guarded, hasKey, inputs[1..]);
    }
  }

  /** The input sequence that starts a second instance as written starts only one under the guard. */
  lemma GuardedSpeechStartKeepsStartClosed()
    ensures var panel := Guarded(Toggle(Mount(true)).state, false);
      GuardedRequests(panel, true, [StartCall, Sdk(SpeechStart), StartCall]) == [CreateAndStart, NoRequest, NoRequest]
  {
  }

  /** Once the first call has started and the SDK reports it ended, the guard allows a new start. */
  lemma GuardedStartAgainAfterCallEnd(g: Guarded)
    requires StartAllowed(g)
    ensures var g1 := GuardedRun(g, true, [StartCall, StartResolved, Sdk(CallStart)]);
      g1.widget.isCallActive && g1.widget.hasSession && !StartAllowed(g1)
    ensures StartAllowed(GuardedRun(g, true, [StartCall, StartResolved, Sdk(CallStart), Sdk(CallEnd)]))
  {
  }

  // ---------------------------------------------------------------------------
  // Call life cycle over input sequences
  // ---------------------------------------------------------------------------

  /** A started call: `start` resolves, `call-start` arrives, then `call-end` releases everything. */
  lemma CallLifecycle(s: WidgetState)
    ensures Requests(s, true, [StartCall, StartResolved, Sdk(CallStart)]) == [CreateAndStart, NoRequest, NoRequest]
    ensures var r := Run(s, true, [StartCall, StartResolved, Sdk(CallStart)]);
      && r.isCallActive && r.hasSession && r.error == None
      && r.callStatus == CallActiveListening && r.chatLog == []
      && r.isWidgetOpen == s.isWidgetOpen
    ensures var r := Run(s, true, [StartCall, StartResolved, Sdk(CallStart), Sdk(CallEnd)]);
      && !r.isCallActive && !r.hasSession && r.callStatus == CallEnded
      && r.chatLog == [] && r.displayOrder == None
  {
  }

  /** A rejected `start` records the message in the error and the status, and holds no session. */
  lemma RejectedStart(s: WidgetState, t: Thrown)
    ensures Requests(s, true, [StartCall, StartRejected(t)]) == [CreateAndStart, NoRequest]
    ensures var r := Run(s, true, [StartCall, StartRejected(t)]);
      && r.error == Some(MessageOf(t, UnknownStartError))
      && r.callStatus == Failed(Truncate(MessageOf(t, UnknownStartError)))
      && !r.isCallActive && !r.hasSession && r.chatLog == []
  {
    var inputs := [StartCall, StartRejected(t)];
    var s1 := StartCallNow(s, true).state;
    assert inputs[1..] == [StartRejected(t)];
    assert Run(s, true, inputs) == Run(s1, true, [StartRejected(t)]);
    assert Requests(s, true, inputs) == [CreateAndStart] + Requests(s1, true, [StartRejected(t)]);
  }

  /** End Call without a session resets the call locally and asks nothing of the SDK. */
  lemma EndCallWithoutSession(s: WidgetState, hasKey: bool)
    requires !s.hasSession
    ensures Requests(s, hasKey, [EndCall]) == [NoRequest]
    ensures Run(s, hasKey, [EndCall]) == s.(isCallActive := false, callStatus := Idle, displayOrder := None, chatLog := [])
  {
  }

  /**
   End Call with a session asks the SDK to stop. Right after a resolved `stop`
   the session is still held and the status is "Ending Call..."; a rejected
   one force-resets the call.
   */
  lemma EndCallWithSession(s: WidgetState, hasKey: bool, t: Thrown)
    requires s.hasSession
    ensures Requests(s, hasKey, [EndCall, StopResolved]) == [Stop, NoRequest]
    ensures Run(s, hasKey, [EndCall, StopResolved]) == s.(callStatus := EndingCall)
    ensures var r := Run(s, hasKey, [EndCall, StopRejected(t)]);
      && r.error == Some(MessageOf(t, UnknownStopError))
      && !r.isCallActive && !r.hasSession && r.callStatus == Idle
      && r.displayOrder == None && r.chatLog == [] && r.isWidgetOpen == s.isWidgetOpen
  {
    var inputs := [EndCall, StopRejected(t)];
    var s1 := EndCallNow(s).state;
    assert inputs[1..] == [StopRejected(t)];
    assert Run(s, hasKey, inputs) == Run(s1, hasKey, [StopRejected(t)]);
  }

  /** Whatever came before, a failed start, a failed stop or an SDK error with a message leaves no call and no session. */
  lemma FailureReleasesSession(s: WidgetState, hasKey: bool, inputs: seq<Input>, last: Input)
    requires last.StartRejected? || last.StopRejected? || (last.Sdk? && last.event.ErrorEvent? && last.event.payload.WithMessage?)
    ensures var r := Run(s, hasKey, inputs + [last]);
      !r.isCallActive && !r.hasSession && r.error.Some?
  {
    RunAppend(s, hasKey, inputs, [last]);
  }

  /** An `error` event without a message clears the error and aborts: a live call stays live and held. */
  lemma ErrorWithoutMessageKeepsCall(s: WidgetState, hasKey: bool)
    ensures Run(s, hasKey, [Sdk(ErrorEvent(WithoutMessage))]) == s.(error := None)
    ensures Run(s, hasKey, [Sdk(ErrorEvent(Nullish))]) == s
  {
  }

  /**
   The error paragraph is rendered: the panel is open, the error is truthy (set
   and not the empty string) and no order summary is displayed.
   */
  function ErrorVisible(s: WidgetState): (r: bool)
    ensures r ==> s.isWidgetOpen && s.displayOrder.None?
    ensures s.error == None || s.error == Some("") ==> !r
    ensures s.isWidgetOpen && s.displayOrder.None? && s.error.Some? && |s.error.value| > 0 ==> r
  {
    s.isWidgetOpen && s.error.Some? && s.error.value != "" && s.displayOrder.None?
  }

  /** An `error` event after an order arrived records the error, but the kept order summary hides it. */
  lemma ErrorHiddenByOrder(s: WidgetState, hasKey: bool, m: string)
    requires s.displayOrder.Some?
    ensures var r := Run(s, hasKey, [Sdk(ErrorEvent(WithMessage(m)))]);
      r.error == Some(m) && r.displayOrder == s.displayOrder && !ErrorVisible(r)
  {
  }

  /** The missing-key notice is never on screen: the panel is closed at mount, and opening it clears the notice. */
  lemma MountNoticeNeverVisible()
    ensures Mount(false).error.Some? && !ErrorVisible(Mount(false))
    ensures Toggle(Mount(false)).state.error == None && !ErrorVisible(Toggle(Mount(false)).state)
  {
  }

  /** The speech events only. */
  predicate IsSpeech(i: Input) {
    i == Sdk(SpeechStart) || i == Sdk(SpeechEnd)
  }

  /** Speech events change the status field alone, which names who spoke last. */
  lemma {:induction false} SpeechOnlyTouchesStatus(s: WidgetState, hasKey: bool, inputs: seq<Input>)
    requires forall k :: 0 <= k < |inputs| ==> IsSpeech(inputs[k])
    ensures Run(s, hasKey, inputs) == s.(callStatus := Run(s, hasKey, inputs).callStatus)
    ensures |inputs| > 0 ==>
      Run(s, hasKey, inputs).callStatus ==
        (if inputs[|inputs| - 1] == Sdk(SpeechStart) then AssistantSpeaking else Listening)
    decreases |inputs|
  {
    if |inputs| > 0 {
      var s1 := Apply(s, hasKey, inputs[0]).state;
      assert s1 == s.(callStatus := s1.callStatus);
      SpeechOnlyTouchesStatus(s1, hasKey, inputs[1..]);
      if |inputs| > 1 {
        assert inputs[1..][|inputs| - 2] == inputs[|inputs| - 1];
      }
    }
  }

  /** Cutting a status detail twice cuts nothing more, and text after the 30th character never reaches the status. */
  lemma TruncateStable(s: string, t: string)
    ensures Truncate(Truncate(s)) == Truncate(s)
    ensures |s| >= StatusDetailLength ==> Truncate(s + t) == Truncate(s)
  {
    if |s| >= StatusDetailLength {
      assert (s + t)[..StatusDetailLength] == s[..StatusDetailLength];
    }
  }
}
